=== FILE: README.md ===
# Shift-DMS client logic in Dafny

Shift-DMS is a document management web application: users sign up, sign in,
and create and edit documents that are Private (1), Public (2) or Shared (3)
with chosen roles. This project models the three pieces of its client that
hold rules rather than layout:

- the document editor component (`DocumentManager`), a three-mode state
  machine (READ, WRITE, NEW) whose handlers update the component state and
  whose save handler builds the request for the create or modify action
  (`editor.dfy`, module `DocumentEditor`);
- the users reducer, the session and user-administration slice of the store
  (`users_reducer.dfy`, module `UsersReducer`);
- the documents reducer, the fetch and create status of the documents slice
  (`documents_reducer.dfy`, module `DocumentsReducer`).

`domain.dfy` holds the access-level codes and the document record, and
`wrappers.dfy` the `Option`/`Result` types.

The component's state is a class whose fields are the React state (`title`,
`content`, `accessId`, `rightId`, `accessMode`, `selectedRoles`); each handler
is a method, and the props it reads are passed as a `Props` value. The two
`lodash.reduce` loops that build role grants are methods with loops, proved
equal to map comprehensions. The save handler builds its change set field by
field and is proved equal to the pure payload functions `CreatePayload` and
`EditPatch`, about which the lemmas state what a request contains. The
visibility conditions of the rendered markup are predicates.

The reducers are pure functions from a state and an action to a new state,
written as record updates. Lemmas state, for every action type of each
reducer, which fields change and which stay (for the users reducer, as the
whole new state); `Run` dispatches a sequence of actions, and lemmas by
induction state what holds after any sequence (the session stays consistent, the role id
is the last added user's, the documents slice follows the last fetch and
create actions).

## Model

| member | source | states |
|---|---|---|
| `DocumentEditor.ParseInt10` | client/components/DocumentManager.jsx:158-161 | `parseInt(value, 10)`: a number parses to itself; a string parses when it starts with a digit, to a non-negative value, and is NaN otherwise |
| `DocumentEditor.ParseDigits` | client/components/DocumentManager.jsx:158-161 | a non-empty string of digits parses to its decimal value |
| `DocumentEditor.ParseIgnoresTrailing` | client/components/DocumentManager.jsx:158-161 | a digit run followed by anything not starting with a digit parses like the digit run alone |
| `DocumentEditor.ParseDecimalString` | client/components/DocumentManager.jsx:158-161 | parsing the decimal numeral of any natural number gives that number back |
| `DocumentEditor.RadioValuesParse` | client/components/DocumentManager.jsx:292-322 | the Private, Public and Shared radio values "1", "2", "3" parse to the access levels 1, 2, 3 |
| `DocumentEditor.RadioChangeAsWritten` | client/components/DocumentManager.jsx:156-165 | the radio handler as written, with its strict `value === 3` test; no contract of its own, its behaviour is stated by `SharedRadioDiscardsRoles` |
| `DocumentEditor.SharedRadioDiscardsRoles` | client/components/DocumentManager.jsx:156-165 | as written, the Shared radio's string value fails `value === 3`, so choosing Shared selects the user's own role alone; only a numeric 3 keeps the selected roles |
| `DocumentEditor.CreateGrants` | client/components/DocumentManager.jsx:184-189 | the grants of a new document; no contract of its own, stated by `GrantsShape` and `ReduceCreateGrants` |
| `DocumentEditor.ShareGrants` | client/components/DocumentManager.jsx:203-207 | the grants of an edited Shared document; no contract of its own, stated by `ShareGrantsShape`, `GrantsShape` and `ReduceShareGrants` |
| `DocumentEditor.ReduceCreateGrants` | client/components/DocumentManager.jsx:184-189 | the create path's reduce over the selected roles yields exactly the grant map of every selected role other than the user's own, each with right 3 |
| `DocumentEditor.ReduceShareGrants` | client/components/DocumentManager.jsx:203-207 | the edit path's reduce yields exactly the grant map of every selected role, each with right 3 |
| `DocumentEditor.ShareGrantsShape` | client/components/DocumentManager.jsx:203-207 | the edit grants give read right 3 to exactly the selected roles |
| `DocumentEditor.GrantsShape` | client/components/DocumentManager.jsx:184-207 | grant keys are the selected roles (minus the owner's role when creating), every value is 3, and the create grants are the edit grants without the owner's role |
| `DocumentEditor.OwnRoleFilteredExample` | client/components/DocumentManager.jsx:184-189 | a user of role 4 creating a document shared with roles 4 and 6 grants role 6 alone |
| `DocumentEditor.CreatePayload` | client/components/DocumentManager.jsx:179-190 | the new-document payload; no contract of its own, stated by `CreatePayloadProperties` and `OwnerRoleCreateVersusEdit` |
| `DocumentEditor.EditPatch` | client/components/DocumentManager.jsx:192-209 | the edit change set; no contract of its own, stated by `EditPatchProperties`, `UntouchedDocumentPatch` and `ContentOnlyPatchExample` |
| `DocumentEditor.CreatePayloadProperties` | client/components/DocumentManager.jsx:179-190 | a new document's owner is the user, its title, content and access level are the editor's, and its roles never include the user's role |
| `DocumentEditor.EditPatchProperties` | client/components/DocumentManager.jsx:192-209 | the patch holds title/content iff they changed, accessId iff it changed or is 3, roles iff accessId is 3, and then every selected role with right 3 |
| `DocumentEditor.OwnerRoleCreateVersusEdit` | client/components/DocumentManager.jsx:184-207 | the owner's selected role is dropped from a new document's grants but kept in an edit's grants |
| `DocumentEditor.UntouchedDocumentPatch` | client/components/DocumentManager.jsx:192-209 | saving a document unchanged sends no title or content, and an access level with all selected roles only when it is Shared |
| `DocumentEditor.ContentOnlyPatchExample` | client/components/DocumentManager.jsx:192-209 | changing only the content of a private document sends only the content |
| `DocumentEditor.FormVisible` | client/components/DocumentManager.jsx:267-272 | the form is shown while writing or creating; no contract of its own, stated by `ViewsExclusive` |
| `DocumentEditor.ContentVisible` | client/components/DocumentManager.jsx:341-345 | the rendered content is shown while reading; no contract of its own, stated by `ViewsExclusive` |
| `DocumentEditor.RoleControlsHidden` | client/components/DocumentManager.jsx:282-288 | the role controls' hiding condition; no contract of its own, stated by `RoleControlsVisibility` |
| `DocumentEditor.RoleSearchDisabled` | client/components/DocumentManager.jsx:325 | the role search is disabled unless the level is Shared; no contract of its own, stated by `RoleSearchFollowsRadio` |
| `DocumentEditor.EditButtonVisible` | client/components/DocumentManager.jsx:352-357 | the edit button's condition; no contract of its own, stated by `ViewsExclusive` and `EditButtonWithoutEffect` |
| `DocumentEditor.SaveButtonVisible` | client/components/DocumentManager.jsx:361-365 | the save button's condition; no contract of its own, stated by `ViewsExclusive` |
| `DocumentEditor.CancelButtonVisible` | client/components/DocumentManager.jsx:369-373 | the cancel button's condition; no contract of its own, stated by `ViewsExclusive` |
| `DocumentEditor.CloseButtonVisible` | client/components/DocumentManager.jsx:377-381 | the close button's condition; no contract of its own, stated by `ViewsExclusive` |
| `DocumentEditor.EditPermitted` | client/components/DocumentManager.jsx:225 | the edit handler's right test; no contract of its own, stated by `EditButtonWithoutEffect` and `DocumentManager.EditDocument` |
| `DocumentEditor.ViewsExclusive` | client/components/DocumentManager.jsx:267-384 | the form and the rendered content are never shown together; save and cancel are shown exactly with the form, close exactly with the content, and edit only with the content |
| `DocumentEditor.EditButtonWithoutEffect` | client/components/DocumentManager.jsx:352-357 | the edit button is shown for every right but 3 while reading, yet the edit handler ignores rights above 3; every right the handler accepts shows the button |
| `DocumentEditor.RoleControlsVisibility` | client/components/DocumentManager.jsx:282-288 | an overlord never sees the role controls; another user sees them when no document is open and for a document they own only, whatever the mode |
| `DocumentEditor.RoleSearchFollowsRadio` | client/components/DocumentManager.jsx:292-325 | the role search is disabled after choosing Private or Public and enabled after choosing Shared |
| `DocumentEditor.DocumentManager.constructor` | client/components/DocumentManager.jsx:44-54 | the initial state is an empty public draft with right 3, in NEW mode when creating and READ mode otherwise, with no roles selected |
| `DocumentEditor.DocumentManager.ReceiveProps` | client/components/DocumentManager.jsx:91-114 | props with neither a document nor a new request change nothing; otherwise right and roles come from the props, a new draft is empty and public in NEW mode, an opened document is shown in READ mode with its title, content and access level |
| `DocumentEditor.DocumentManager.OnRolesChange` | client/components/DocumentManager.jsx:125-129 | the selected roles become the chosen ones; nothing else changes |
| `DocumentEditor.DocumentManager.OnChange` | client/components/DocumentManager.jsx:139-145 | the title box sets the title to its value, any other target (the rich-text editor) sets the content it reports; nothing else changes |
| `DocumentEditor.DocumentManager.HandleRadioButtonChange` | client/components/DocumentManager.jsx:156-165 | the access level becomes the parsed radio value; Shared keeps the selected roles, any other level selects the user's own role alone |
| `DocumentEditor.DocumentManager.SaveDocument` | client/components/DocumentManager.jsx:175-212 | in NEW mode the request is the whole new document; otherwise it is the current document's id with its minimal change set; without a current document the edit save fails |
| `DocumentEditor.DocumentManager.EditDocument` | client/components/DocumentManager.jsx:223-232 | the mode becomes WRITE when the right is below 3 and is unchanged otherwise; nothing else changes |
| `DocumentEditor.SaveUntouchedDocument` | client/components/DocumentManager.jsx:91-232 | opening a document, switching to writing and saving without typing sends no title or content, and an access level with the document's roles only when it is Shared |
| `DocumentEditor.CreateUnsharedDocument` | client/components/DocumentManager.jsx:91-212 | a new draft saved after choosing Private or Public is an empty document of that level, owned by the user, with no role grants |
| `UsersReducer.Users` | client/reducers/users.js:11-200 | the reducer; no contract of its own, its actions are stated by the lemmas below |
| `UsersReducer.AuthProgressClearsError` | client/reducers/users.js:13-23 | login, sign-up and logout requests and successes clear the error, record the action type and change nothing else |
| `UsersReducer.AuthFailureStoresMessage` | client/reducers/users.js:24-31 | login, sign-up and logout failures store the payload as the error, record the action type and change nothing else |
| `UsersReducer.RemoveUserSignsOut` | client/reducers/users.js:32-46 | the whole new state: removing the user nulls the id, signs out, clears the identity strings, the error and the updated flag, records the action, and keeps the role id, roles, users and current user |
| `UsersReducer.AddUserSignsIn` | client/reducers/users.js:47-61 | the whole new state: adding a user copies the identity, role id included, from the payload, signs in, clears the error and the updated flag and records the action |
| `UsersReducer.AdminFailureClearsProgress` | client/reducers/users.js:79-165 | the whole new state: each fetch-users, modify, get and delete failure clears its own in-progress and outcome flags and stores the payload as the error, keeping everything else |
| `UsersReducer.ModifyKeepsIdentity` | client/reducers/users.js:97-109 | the whole new state: a successful profile change updates email, username, names and current user, clears the error, marks the user modified and updated, and keeps the id, role id, role and session |
| `UsersReducer.RolesFetchLeavesUpdating` | client/reducers/users.js:166-180 | a successful role fetch stores the roles and sets the updated flag only, so the in-progress flag its request set stays on |
| `UsersReducer.FetchUsersStarts` | client/reducers/users.js:62-71 | the whole new state: a user-list fetch request sets the list's in-progress flag, clears the error and four outcome flags, and keeps the session, the lists and the roles flag |
| `UsersReducer.ModifyStarts` | client/reducers/users.js:86-96 | the whole new state: a profile-change request sets its in-progress flag, clears the error and five outcome flags, and keeps the session and the lists |
| `UsersReducer.GetStarts` | client/reducers/users.js:117-127 | the whole new state: a user lookup request sets its in-progress flag, clears the error and five outcome flags, and keeps the session and the lists |
| `UsersReducer.DeleteStarts` | client/reducers/users.js:142-152 | the whole new state: a delete request sets its in-progress flag, clears the error and five outcome flags, and keeps the session and the lists |
| `UsersReducer.RolesFetchStarts` | client/reducers/users.js:166-174 | the whole new state: a role fetch request sets the roles' in-progress flag, clears the error and three outcome flags, and keeps the user flags, the session and the lists |
| `UsersReducer.AdminRequestStartsProgress` | client/reducers/users.js:62-174 | each of the five requests sets its own in-progress flag, clears the error and keeps the session and the lists |
| `UsersReducer.AdminSuccessStoresResult` | client/reducers/users.js:72-158 | the whole new state: a successful user fetch stores the list, a lookup stores the user, a delete marks the deletion without pruning the list; each clears its own in-progress flag and keeps the session and the error |
| `UsersReducer.RolesFetchFailed` | client/reducers/users.js:181-187 | the whole new state: a failed role fetch clears both role flags, stores the message and keeps the roles |
| `UsersReducer.CancelClearsOutcomes` | client/reducers/users.js:188-197 | the whole new state: cancelling clears the error and five outcome flags, but keeps the in-progress flags, the session and the lists |
| `UsersReducer.UnrecognisedIsIdentity` | client/reducers/users.js:198-199 | an unrecognised action returns the state unchanged |
| `UsersReducer.IdentityFrame` | client/reducers/users.js:11-200 | only adding a user changes the role id; only adding or removing one changes the id or the signed-in flag |
| `UsersReducer.UsersKeepsSession` | client/reducers/users.js:32-61 | every action keeps "signed in iff there is a user id" |
| `UsersReducer.RunKeepsSession` | client/reducers/users.js:11-200 | any sequence of actions keeps "signed in iff there is a user id" |
| `UsersReducer.RunRoleId` | client/reducers/users.js:47-61 | after any sequence of actions the role id is the last added user's, or the initial one, even after a removal |
| `DocumentsReducer.Documents` | client/reducers/documents.js:7-47 | the reducer; no contract of its own, its actions are stated by the lemmas below |
| `DocumentsReducer.DefaultStateIdle` | client/reducers/documents.js:1-5 | the default state holds no documents and is neither fetching nor creating |
| `DocumentsReducer.HandledRecordsType` | client/reducers/documents.js:7-47 | a handled action records its type as the result; any other action returns the state unchanged |
| `DocumentsReducer.FetchTransitions` | client/reducers/documents.js:9-26 | a fetch request only sets fetching; a success stores the payload and marks success; a failure keeps the documents and marks failure; neither touches the create status |
| `DocumentsReducer.CreateTransitions` | client/reducers/documents.js:27-43 | a create request sets creating; success and failure clear it and record whether the document was created; none touches documents or fetch status |
| `DocumentsReducer.LastOfNone` | client/reducers/documents.js:7-47 | no action of the given types is found exactly when the sequence holds none |
| `DocumentsReducer.LastOfIsLast` | client/reducers/documents.js:7-47 | the action found is at a position after which no action has one of the types |
| `DocumentsReducer.RunResult` | client/reducers/documents.js:7-47 | after any sequence the result is the last handled action's type, or the initial result |
| `DocumentsReducer.RunAuthored` | client/reducers/documents.js:13-19 | after any sequence the documents are the last successful fetch's payload, or the initial documents |
| `DocumentsReducer.RunFetching` | client/reducers/documents.js:9-26 | after any sequence fetching is on exactly when the last fetch action was a request |
| `DocumentsReducer.RunCreating` | client/reducers/documents.js:27-43 | after any sequence creating is on exactly when the last create action was a request |
| `DocumentsReducer.RunFollowsLastActions` | client/reducers/documents.js:7-47 | after any sequence of actions the result, the documents, fetching and creating are determined by the last handled, successful-fetch, fetch and create actions |
| `DocumentsReducer.RunFromDefaultAuthored` | client/reducers/documents.js:1-20 | from the default state, documents appear only through a successful fetch |

## Findings

| source | as written | input that shows it | evidently intended | confidence | as-written member | corrected member |
|---|---|---|---|---|---|---|
| client/components/DocumentManager.jsx:157 | `value === 3` compares the radio's value, the string "3" given in the markup at line 320, with the number 3, so it never holds and choosing Shared replaces the selected roles with the user's own role | a document with no selected roles, user of role 2, click Shared: the selected roles become [2], and a later edit save shares the document with role 2 | choosing Shared keeps the selected roles; only Private and Public reset them | medium (assumes the radio component passes its value prop through unchanged), not executed | `DocumentEditor.SharedRadioDiscardsRoles` | `DocumentEditor.DocumentManager.HandleRadioButtonChange` |

## Left out

- The rich-text editor wiring (its initialisation, its key and change events and the calls that load content into it), toast configuration, the markup beyond its visibility conditions, and the Redux `connect`/`mapStateToProps` plumbing: they are presentation, not rules.
- The create and modify dispatches are modelled as the request `SaveDocument` returns, not as network calls; the cancel handler only dispatches an action and changes no state, so it is not modelled.
- React's asynchronous `setState` and its callbacks: `ReceiveProps` applies the two nested updates as one transition.
- `DocumentEditor.DocumentManager.SaveDocument`: in the component an edit save without a current document is a null dereference that throws; the model returns `Err(NoCurrentDocument)`.
- `DocumentEditor.DocumentManager.EditDocument` reads the right from the props, as the component does, while the edit button reads the right kept in the state; the two agree only after props that carry a document or a new request, since other props leave the state's right as it was.
- `DocumentEditor.ParseInt10`: does not skip leading whitespace or read a sign, as JavaScript's `parseInt` does, and returns the exact value of the digits, while `parseInt` returns a double that rounds digit runs above 2^53; the radio values never need any of these.
- `DocumentEditor.DocumentManager.HandleRadioButtonChange`: requires a value that parses to a number; the three radios always send one, and a NaN access level is not modelled.
- The users reducer's default state comes from client/reducers/initialStates.js and its action type constants from client/actions/actionTypes.js; neither file is part of this model. The reducer is given its state, action types are an enumeration named after the constants, and each action carries a typed payload rather than an arbitrary JavaScript value. `Other(name)` stands for an action whose type is none of the handled constants; the model does not check that `name` differs from their names.
- JavaScript's `undefined` fields of the documents slice (`fetchSuccessful`, `documentCreated`, `result`) are `None` until an action sets them.
- No access evaluator or grant persistence appears in the modelled files; the only access checks are the right comparisons and the role-control visibility condition.
- The sign-up/login form, the server's token signing and the access table schema are outside the modelled core: the first is generic form state, the second a wrapper over a token library and the clock, the third a schema with no behaviour.

=== FILE: documents_reducer.dfy ===
/**
 * The documents reducer: the fetch and create status of the documents slice
 * of the client store. A handled action copies the state, overrides a few
 * fields and records its type in `result`; any other action returns the
 * state itself.
 */
module DocumentsReducer {
  import opened Wrappers
  import opened Domain

  /** The action type names the reducer switches on. */
  const FetchRequestType: string := "DOCUMENTS_FETCH_REQUEST"
  const FetchSuccessfulType: string := "DOCUMENTS_FETCH_SUCCESSFUL"
  const FetchFailedType: string := "DOCUMENTS_FETCH_FAILED"
  const CreateRequestType: string := "DOCUMENT_CREATE_REQUEST"
  const CreateSuccessfulType: string := "DOCUMENT_CREATE_SUCCESSFUL"
  const CreateFailedType: string := "DOCUMENT_CREATE_FAILED"

  const FetchTypes: set<string> := {FetchRequestType, FetchSuccessfulType, FetchFailedType}
  const CreateTypes: set<string> := {CreateRequestType, CreateSuccessfulType, CreateFailedType}
  const HandledTypes: set<string> := FetchTypes + CreateTypes

  /** An action: its type and, for a successful fetch, the documents fetched. */
  datatype DocumentsAction = DocumentsAction(actionType: string, payload: seq<Document>)

  /**
   * The documents slice. Fields the default state does not set are
   * `undefined` until an action sets them (None here).
   */
  datatype DocumentsState = DocumentsState(
    authored: seq<Document>,
    isFetching: bool,
    creatingDocument: bool,
    fetchSuccessful: Option<bool>,
    documentCreated: Option<bool>,
    result: Option<string>)

  /** The state before any action: nothing authored, nothing in progress. */
  const DefaultState: DocumentsState := DocumentsState([], false, false, None, None, None)

  /** The reducer. */
  function Documents(state: DocumentsState, action: DocumentsAction): DocumentsState {
    if action.actionType == FetchRequestType then
      state.(isFetching := true, result := Some(action.actionType))
    else if action.actionType == FetchSuccessfulType then
      state.(isFetching := false, fetchSuccessful := Some(true), authored := action.payload,
             result := Some(action.actionType))
    else if action.actionType == FetchFailedType then
      state.(isFetching := false, fetchSuccessful := Some(false), result := Some(action.actionType))
    else if action.actionType == CreateRequestType then
      state.(creatingDocument := true, result := Some(action.actionType))
    else if action.actionType == CreateSuccessfulType then
      state.(creatingDocument := false, documentCreated := Some(true), result := Some(action.actionType))
    else if action.actionType == CreateFailedType then
      state.(creatingDocument := false, documentCreated := Some(false), result := Some(action.actionType))
    else
      state
  }

  /** The default state is idle and holds no documents. */
  lemma DefaultStateIdle()
    ensures DefaultState.authored == []
    ensures !DefaultState.isFetching && !DefaultState.creatingDocument
    ensures DefaultState.result.None?
  {
  }

  /** A handled action records its type; any other action changes nothing. */
  lemma HandledRecordsType(state: DocumentsState, action: DocumentsAction)
    ensures action.actionType in HandledTypes ==> Documents(state, action).result == Some(action.actionType)
    ensures action.actionType !in HandledTypes ==> Documents(state, action) == state
  {
  }

  /**
   * A fetch request only marks fetching; a success stores the documents and
   * marks the fetch successful; a failure keeps the documents and marks it
   * failed. Neither touches the create status.
   */
  lemma FetchTransitions(state: DocumentsState, payload: seq<Document>)
    ensures Documents(state, DocumentsAction(FetchRequestType, payload))
         == state.(isFetching := true, result := Some(FetchRequestType))
    ensures var s := Documents(state, DocumentsAction(FetchSuccessfulType, payload));
      && s.authored == payload && !s.isFetching && s.fetchSuccessful == Some(true)
      && s.creatingDocument == state.creatingDocument && s.documentCreated == state.documentCreated
    ensures var s := Documents(state, DocumentsAction(FetchFailedType, payload));
      && s.authored == state.authored && !s.isFetching && s.fetchSuccessful == Some(false)
      && s.creatingDocument == state.creatingDocument && s.documentCreated == state.documentCreated
  {
  }

  /**
   * A create request marks creating; its success or failure clears that and
   * records whether the document was created. None of them touches the
   * documents or the fetch status.
   */
  lemma CreateTransitions(state: DocumentsState, payload: seq<Document>)
    ensures var s := Documents(state, DocumentsAction(CreateRequestType, payload));
      s.creatingDocument && s.documentCreated == state.documentCreated
    ensures var s := Documents(state, DocumentsAction(CreateSuccessfulType, payload));
      !s.creatingDocument && s.documentCreated == Some(true)
    ensures var s := Documents(state, DocumentsAction(CreateFailedType, payload));
      !s.creatingDocument && s.documentCreated == Some(false)
    ensures forall t :: t in CreateTypes ==>
      var s := Documents(state, DocumentsAction(t, payload));
      s.authored == state.authored && s.isFetching == state.isFetching
      && s.fetchSuccessful == state.fetchSuccessful
  {
  }

  // ---------------------------------------------------------------------
  // Sequences of actions
  // ---------------------------------------------------------------------

  /** The state after dispatching `actions` in order. */
  function Run(state: DocumentsState, actions: seq<DocumentsAction>): DocumentsState
    decreases |actions|
  {
    if actions == [] then state
    else Documents(Run(state, actions[..|actions| - 1]), actions[|actions| - 1])
  }

  /** The last action in `actions` whose type is one of `types`. */
  function LastOf(actions: seq<DocumentsAction>, types: set<string>): (last: Option<DocumentsAction>)
    ensures last.Some? ==> last.value in actions && last.value.actionType in types
    decreases |actions|
  {
    if actions == [] then None
    else if actions[|actions| - 1].actionType in types then Some(actions[|actions| - 1])
    else LastOf(actions[..|actions| - 1], types)
  }

  /** `LastOf` finds nothing exactly when no action has one of the types. */
  lemma {:induction false} LastOfNone(actions: seq<DocumentsAction>, types: set<string>)
    ensures LastOf(actions, types).None? <==> forall i :: 0 <= i < |actions| ==> actions[i].actionType !in types
    decreases |actions|
  {
    if actions != [] {
      var n := |actions| - 1;
      LastOfNone(actions[..n], types);
      assert forall i :: 0 <= i < n ==> actions[i] == actions[..n][i];
    }
  }

  /**
   * What `LastOf` finds sits at a position after which no action has one of
   * the types: it is the last such action.
   */
  lemma {:induction false} LastOfIsLast(actions: seq<DocumentsAction>, types: set<string>)
    requires LastOf(actions, types).Some?
    ensures exists i ::
              && 0 <= i < |actions| && actions[i] == LastOf(actions, types).value
              && forall j :: i < j < |actions| ==> actions[j].actionType !in types
    decreases |actions|
  {
    var n := |actions| - 1;
    if actions[n].actionType in types {
      assert actions[n] == LastOf(actions, types).value;
    } else {
      var front := actions[..n];
      LastOfIsLast(front, types);
      var i :| 0 <= i < n && front[i] == LastOf(front, types).value
        && forall j :: i < j < n ==> front[j].actionType !in types;
      assert actions[i] == front[i];
      assert forall j :: i < j < n ==> actions[j] == front[j];
    }
  }

  /** The recorded result is the type of the last handled action. */
  lemma {:induction false} RunResult(state: DocumentsState, actions: seq<DocumentsAction>)
    ensures Run(state, actions).result
         == match LastOf(actions, HandledTypes) case Some(a) => Some(a.actionType) case None => state.result
    decreases |actions|
  {
    if actions != [] {
      var front, a := actions[..|actions| - 1], actions[|actions| - 1];
      RunResult(state, front);
      assert Run(state, actions) == Documents(Run(state, front), a);
    }
  }

  /** The documents are those of the last successful fetch. */
  lemma {:induction false} RunAuthored(state: DocumentsState, actions: seq<DocumentsAction>)
    ensures Run(state, actions).authored
         == match LastOf(actions, {FetchSuccessfulType}) case Some(a) => a.payload case None => state.authored
    decreases |actions|
  {
    if actions != [] {
      var front, a := actions[..|actions| - 1], actions[|actions| - 1];
      RunAuthored(state, front);
      assert Run(state, actions) == Documents(Run(state, front), a);
    }
  }

  /** Fetching is on exactly when the last fetch action was a request. */
  lemma {:induction false} RunFetching(state: DocumentsState, actions: seq<DocumentsAction>)
    ensures Run(state, actions).isFetching
         == match LastOf(actions, FetchTypes) case Some(a) => a.actionType == FetchRequestType case None => state.isFetching
    decreases |actions|
  {
    if actions != [] {
      var front, a := actions[..|actions| - 1], actions[|actions| - 1];
      RunFetching(state, front);
      assert Run(state, actions) == Documents(Run(state, front), a);
    }
  }

  /** Creating is on exactly when the last create action was a request. */
  lemma {:induction false} RunCreating(state: DocumentsState, actions: seq<DocumentsAction>)
    ensures Run(state, actions).creatingDocument
         == match LastOf(actions, CreateTypes) case Some(a) => a.actionType == CreateRequestType
            case None => state.creatingDocument
    decreases |actions|
  {
    if actions != [] {
      var front, a := actions[..|actions| - 1], actions[|actions| - 1];
      RunCreating(state, front);
      assert Run(state, actions) == Documents(Run(state, front), a);
    }
  }

  /**
   * After any sequence of actions, the recorded result is the type of the
   * last handled action, the documents are the last successful fetch's,
   * fetching is on exactly when the last fetch action was a request, and
   * creating is on exactly when the last create action was a request; with
   * no such action each keeps its initial value.
   */
  lemma RunFollowsLastActions(state: DocumentsState, actions: seq<DocumentsAction>)
    ensures Run(state, actions).result
         == match LastOf(actions, HandledTypes) case Some(a) => Some(a.actionType) case None => state.result
    ensures Run(state, actions).authored
         == match LastOf(actions, {FetchSuccessfulType}) case Some(a) => a.payload case None => state.authored
    ensures Run(state, actions).isFetching
         == match LastOf(actions, FetchTypes) case Some(a) => a.actionType == FetchRequestType case None => state.isFetching
    ensures Run(state, actions).creatingDocument
         == match LastOf(actions, CreateTypes) case Some(a) => a.actionType == CreateRequestType
            case None => state.creatingDocument
  {
    RunResult(state, actions);
    RunAuthored(state, actions);
    RunFetching(state, actions);
    RunCreating(state, actions);
  }

  /** From the default state, documents appear only through a successful fetch. */
  lemma RunFromDefaultAuthored(actions: seq<DocumentsAction>)
    requires forall i :: 0 <= i < |actions| ==> actions[i].actionType != FetchSuccessfulType
    ensures Run(DefaultState, actions).authored == []
  {
    RunFollowsLastActions(DefaultState, actions);
    if LastOf(actions, {FetchSuccessfulType}).Some? {
      assert false;
    }
  }
}

=== FILE: domain.dfy ===
/**
 * The entities the client code shares: the numeric access levels of a
 * document, the right value written into role grants, and the document
 * record the server sends to the client.
 */
module Domain {

  /** Access level codes, as the radio buttons and the server use them. */
  const Private: int := 1
  const Public: int := 2
  const Shared: int := 3

  /** The right value stored for every role a document is shared with (read access). */
  const ReadRight: int := 3

  /** A document as the client receives it from the server. */
  datatype Document = Document(
    id: int,
    title: string,
    content: string,
    ownerId: int,
    accessId: int)
}

=== FILE: editor.dfy ===
/**
 * The document editor component: a three-mode state machine (read, write,
 * new) whose handlers update the component state, and the request payload
 * its save handler hands to the create or modify action.
 *
 * React props are passed to each handler as a `Props` value; the component
 * state is the class `DocumentManager`. The rich-text editor wiring, toasts,
 * markup and the Redux plumbing are not part of this model.
 */
module DocumentEditor {
  import opened Wrappers
  import opened Domain

  /** The three editor modes. */
  datatype EditMode = Read | Write | New

  /** The fields of the logged-in user the editor consults. */
  datatype EditorUser = EditorUser(id: int, roleId: int, role: string)

  /** The props the component receives from the store. */
  datatype Props = Props(
    user: EditorUser,
    createNew: bool,
    rightId: int,
    currentDocumentRoles: seq<int>,
    currentDocument: Option<Document>)

  /** The privileged role title; such users may view but never see the role controls. */
  const Overlord: string := "overlord"

  // ---------------------------------------------------------------------
  // Event values and JavaScript's parseInt
  // ---------------------------------------------------------------------

  /** A radio button's event value: a JavaScript number or string. */
  datatype JsValue = JsNumber(n: int) | JsString(s: string)

  /** The values the three access radio buttons carry in the markup. */
  const PrivateRadio: JsValue := JsString("1")
  const PublicRadio: JsValue := JsString("2")
  const SharedRadio: JsValue := JsString("3")

  predicate IsDigit(c: char) {
    '0' <= c <= '9'
  }

  predicate AllDigits(s: string) {
    forall i :: 0 <= i < |s| ==> IsDigit(s[i])
  }

  /** The length of the longest prefix of `s` made of decimal digits. */
  function LeadingDigits(s: string): (n: nat)
    ensures n <= |s|
    ensures AllDigits(s[..n])
    ensures n < |s| ==> !IsDigit(s[n])
  {
    if s == [] || !IsDigit(s[0]) then 0
    else
      var k := LeadingDigits(s[1..]);
      assert s[..k + 1] == [s[0]] + s[1..][..k];
      k + 1
  }

  /** The value of a string of decimal digits. */
  function DecimalValue(digits: string): nat
    requires AllDigits(digits)
  {
    if digits == [] then 0
    else 10 * DecimalValue(digits[..|digits| - 1]) + (digits[|digits| - 1] as int - '0' as int)
  }

  /**
   * `parseInt(v, 10)` on the values the editor sees: a number parses to
   * itself; a string parses its leading decimal digits, and is NaN (None)
   * when it has none.
   */
  function ParseInt10(v: JsValue): (r: Option<int>)
    ensures v.JsNumber? ==> r == Some(v.n)
    ensures v.JsString? ==> (r.Some? <==> |v.s| > 0 && IsDigit(v.s[0]))
    ensures v.JsString? && r.Some? ==> r.value >= 0
  {
    match v
    case JsNumber(n) => Some(n)
    case JsString(s) =>
      var k := LeadingDigits(s);
      if k == 0 then None else Some(DecimalValue(s[..k]))
  }

  /** JavaScript's strict equality `v === k` against a number. */
  predicate StrictEqualsNumber(v: JsValue, k: int) {
    v == JsNumber(k)
  }

  /** The three radio buttons parse to the three access levels. */
  lemma RadioValuesParse()
    ensures ParseInt10(PrivateRadio) == Some(Private)
    ensures ParseInt10(PublicRadio) == Some(Public)
    ensures ParseInt10(SharedRadio) == Some(Shared)
  {
    assert LeadingDigits("1") == 1 && "1"[..1] == "1";
    assert LeadingDigits("2") == 1 && "2"[..1] == "2";
    assert LeadingDigits("3") == 1 && "3"[..1] == "3";
  }

  /** The digit character of a value below ten. */
  function DigitChar(d: nat): (c: char)
    requires d < 10
    ensures IsDigit(c) && c as int - '0' as int == d
  {
    ('0' as int + d) as char
  }

  /** The decimal numeral of `n`, without leading zeros. */
  function DecimalString(n: nat): (s: string)
    ensures |s| > 0 && AllDigits(s)
    ensures |s| > 1 ==> s[0] != '0'
  {
    if n < 10 then [DigitChar(n)] else DecimalString(n / 10) + [DigitChar(n % 10)]
  }

  /** Digits followed by anything that does not start with a digit: the run is the digits. */
  lemma {:induction false} LeadingDigitsOfPrefix(digits: string, rest: string)
    requires AllDigits(digits)
    requires rest == [] || !IsDigit(rest[0])
    ensures LeadingDigits(digits + rest) == |digits|
    decreases |digits|
  {
    if digits != [] {
      assert (digits + rest)[1..] == digits[1..] + rest;
      assert AllDigits(digits[1..]) by {
        forall i | 0 <= i < |digits[1..]| ensures IsDigit(digits[1..][i]) {
          assert digits[1..][i] == digits[i + 1];
        }
      }
      LeadingDigitsOfPrefix(digits[1..], rest);
    } else {
      assert digits + rest == rest;
    }
  }

  /**
   * `parseInt` reads only the leading digits: a digit run followed by
   * anything that does not start with a digit parses like the run alone.
   */
  lemma ParseIgnoresTrailing(digits: string, rest: string)
    requires |digits| > 0 && AllDigits(digits)
    requires rest == [] || !IsDigit(rest[0])
    ensures ParseInt10(JsString(digits + rest)) == Some(DecimalValue(digits))
  {
    LeadingDigitsOfPrefix(digits, rest);
    assert (digits + rest)[..|digits|] == digits;
  }

  /** A non-empty string of digits parses to its decimal value. */
  lemma ParseDigits(s: string)
    requires |s| > 0 && AllDigits(s)
    ensures ParseInt10(JsString(s)) == Some(DecimalValue(s))
  {
    ParseIgnoresTrailing(s, []);
    assert s + [] == s;
  }

  /** The decimal value of a numeral is the number it was written from. */
  lemma {:induction false} DecimalValueOfString(n: nat)
    ensures DecimalValue(DecimalString(n)) == n
    decreases n
  {
    if n >= 10 {
      var p := DecimalString(n / 10);
      assert (p + [DigitChar(n % 10)])[..|p|] == p;
      DecimalValueOfString(n / 10);
    }
  }

  /** Parsing the decimal numeral of any natural number gives it back. */
  lemma ParseDecimalString(n: nat)
    ensures ParseInt10(JsString(DecimalString(n))) == Some(n)
  {
    ParseDigits(DecimalString(n));
    DecimalValueOfString(n);
  }

  // ---------------------------------------------------------------------
  // The access radio rule as written
  // ---------------------------------------------------------------------

  /** The access level and the selected roles after a radio change. */
  datatype AccessChoice = AccessChoice(accessId: int, selectedRoles: seq<int>)

  /**
   * The radio handler as written: it keeps the selected roles only when the
   * event value is strictly equal to the number 3.
   */
  function RadioChangeAsWritten(value: JsValue, ownRole: int, selected: seq<int>): AccessChoice
    requires ParseInt10(value).Some?
  {
    if StrictEqualsNumber(value, Shared) then AccessChoice(ParseInt10(value).value, selected)
    else AccessChoice(ParseInt10(value).value, [ownRole])
  }

  /**
   * The Shared radio button carries the string "3", which is never strictly
   * equal to the number 3: as written, choosing Shared discards the roles
   * already selected and selects the user's own role, while only a numeric
   * 3 would keep them.
   */
  lemma SharedRadioDiscardsRoles(ownRole: int, selected: seq<int>)
    ensures RadioChangeAsWritten(SharedRadio, ownRole, selected) == AccessChoice(Shared, [ownRole])
    ensures RadioChangeAsWritten(JsNumber(Shared), ownRole, selected) == AccessChoice(Shared, selected)
  {
    RadioValuesParse();
  }

  // ---------------------------------------------------------------------
  // Role grants sent with a save
  // ---------------------------------------------------------------------

  /** The grants of a new document: every selected role but the owner's, with read right. */
  function CreateGrants(selected: seq<int>, ownRole: int): map<int, int> {
    map r | r in selected && r != ownRole :: ReadRight
  }

  /** The grants of an edited Shared document: every selected role, with read right. */
  function ShareGrants(selected: seq<int>): map<int, int> {
    map r | r in selected :: ReadRight
  }

  lemma CreateGrantsAppend(selected: seq<int>, x: int, ownRole: int)
    ensures CreateGrants(selected + [x], ownRole)
         == if x != ownRole then CreateGrants(selected, ownRole)[x := ReadRight]
            else CreateGrants(selected, ownRole)
  {
    var a := CreateGrants(selected + [x], ownRole);
    var b := if x != ownRole then CreateGrants(selected, ownRole)[x := ReadRight]
             else CreateGrants(selected, ownRole);
    forall r ensures r in a <==> r in b {
      assert r in selected + [x] <==> r in selected || r == x;
    }
    assert a.Keys == b.Keys;
  }

  lemma ShareGrantsAppend(selected: seq<int>, x: int)
    ensures ShareGrants(selected + [x]) == ShareGrants(selected)[x := ReadRight]
  {
    var a := ShareGrants(selected + [x]);
    var b := ShareGrants(selected)[x := ReadRight];
    forall r ensures r in a <==> r in b {
      assert r in selected + [x] <==> r in selected || r == x;
    }
    assert a.Keys == b.Keys;
  }

  /**
   * The create path's `lodash.reduce`: an accumulator object that receives
   * `roles[value] = 3` for each selected role other than the user's own.
   */
  method ReduceCreateGrants(selected: seq<int>, ownRole: int) returns (grants: map<int, int>)
    ensures grants == CreateGrants(selected, ownRole)
  {
    grants := map[];
    for i := 0 to |selected|
      invariant grants == CreateGrants(selected[..i], ownRole)
    {
      assert selected[..i + 1] == selected[..i] + [selected[i]];
      CreateGrantsAppend(selected[..i], selected[i], ownRole);
      if selected[i] != ownRole {
        grants := grants[selected[i] := ReadRight];
      }
    }
    assert selected[..|selected|] == selected;
  }

  /** The edit path's `lodash.reduce`: `roles[value] = 3` for every selected role. */
  method ReduceShareGrants(selected: seq<int>) returns (grants: map<int, int>)
    ensures grants == ShareGrants(selected)
  {
    grants := map[];
    for i := 0 to |selected|
      invariant grants == ShareGrants(selected[..i])
    {
      assert selected[..i + 1] == selected[..i] + [selected[i]];
      ShareGrantsAppend(selected[..i], selected[i]);
      grants := grants[selected[i] := ReadRight];
    }
    assert selected[..|selected|] == selected;
  }

  /** The edit grants give read right to exactly the selected roles. */
  lemma ShareGrantsShape(selected: seq<int>)
    ensures ShareGrants(selected).Keys == set r | r in selected
    ensures forall r :: r in ShareGrants(selected) ==> ShareGrants(selected)[r] == ReadRight
  {
  }

  /**
   * Both grant maps give read right only, to selected roles only; a new
   * document's grants are the edit grants without the owner's role.
   */
  lemma {:induction false} GrantsShape(selected: seq<int>, ownRole: int)
    ensures CreateGrants(selected, ownRole).Keys == (set r | r in selected) - {ownRole}
    ensures ShareGrants(selected).Keys == set r | r in selected
    ensures ownRole !in CreateGrants(selected, ownRole)
    ensures CreateGrants(selected, ownRole) == ShareGrants(selected) - {ownRole}
    ensures forall r :: r in ShareGrants(selected) ==> ShareGrants(selected)[r] == ReadRight
    ensures forall r :: r in CreateGrants(selected, ownRole) ==> CreateGrants(selected, ownRole)[r] == ReadRight
  {
    assert CreateGrants(selected, ownRole).Keys == (ShareGrants(selected) - {ownRole}).Keys;
  }

  /** Sharing with roles 4 and 6 as a user of role 4 grants role 6 alone. */
  lemma OwnRoleFilteredExample()
    ensures CreateGrants([4, 6], 4) == map[6 := ReadRight]
  {
    var g := CreateGrants([4, 6], 4);
    assert 6 in [4, 6];
    assert g.Keys == {6} by {
      forall r | r in g ensures r == 6 { }
    }
  }

  // ---------------------------------------------------------------------
  // Save payloads
  // ---------------------------------------------------------------------

  /** The document handed to the create action. */
  datatype NewDocument = NewDocument(
    title: string,
    content: string,
    ownerId: int,
    accessId: int,
    roles: map<int, int>)

  /** The changes handed to the modify action; an absent field is not sent. */
  datatype EditData = EditData(
    title: Option<string>,
    content: Option<string>,
    accessId: Option<int>,
    roles: Option<map<int, int>>)

  /** What a save dispatches: a new document, or a document id and its changes. */
  datatype SaveRequest = SaveNew(document: NewDocument) | Modify(documentId: int, changes: EditData)

  /** Saving an edit without a current document fails (a null dereference in the component). */
  datatype SaveError = NoCurrentDocument

  /** The payload of a new document built from the editor state. */
  function CreatePayload(title: string, content: string, accessId: int, selected: seq<int>, user: EditorUser): NewDocument {
    NewDocument(title, content, user.id, accessId, CreateGrants(selected, user.roleId))
  }

  /** The minimal change set of an edited document against the stored one. */
  function EditPatch(title: string, content: string, accessId: int, selected: seq<int>, doc: Document): EditData {
    EditData(
      if title != doc.title then Some(title) else None,
      if content != doc.content then Some(content) else None,
      if accessId != doc.accessId || accessId == Shared then Some(accessId) else None,
      if accessId == Shared then Some(ShareGrants(selected)) else None)
  }

  /**
   * A new document belongs to the user, carries the editor's title, content
   * and access level, and never grants the user's own role.
   */
  lemma CreatePayloadProperties(title: string, content: string, accessId: int, selected: seq<int>, user: EditorUser)
    ensures var p := CreatePayload(title, content, accessId, selected, user);
      && p.ownerId == user.id
      && p.title == title && p.content == content && p.accessId == accessId
      && user.roleId !in p.roles
      && (forall r :: r in p.roles <==> r in selected && r != user.roleId)
      && (forall r :: r in p.roles ==> p.roles[r] == ReadRight)
  {
    GrantsShape(selected, user.roleId);
  }

  /**
   * The edit patch holds a title or content exactly when it changed, an
   * access level exactly when it changed or is Shared, and roles exactly
   * when the level is Shared: then every selected role, the owner's too,
   * with read right.
   */
  lemma EditPatchProperties(title: string, content: string, accessId: int, selected: seq<int>, doc: Document)
    ensures var p := EditPatch(title, content, accessId, selected, doc);
      && (p.title.Some? <==> title != doc.title)
      && (p.title.Some? ==> p.title.value == title)
      && (p.content.Some? <==> content != doc.content)
      && (p.content.Some? ==> p.content.value == content)
      && (p.accessId.Some? <==> accessId != doc.accessId || accessId == Shared)
      && (p.accessId.Some? ==> p.accessId.value == accessId)
      && (p.roles.Some? <==> accessId == Shared)
      && (p.roles.Some? ==> p.accessId.Some?)
      && (p.roles.Some? ==> (forall r :: r in p.roles.value <==> r in selected))
      && (p.roles.Some? ==> (forall r :: r in p.roles.value ==> p.roles.value[r] == ReadRight))
  {
    ShareGrantsShape(selected);
  }

  /** The owner's role is dropped when creating but kept when re-sharing an edit. */
  lemma OwnerRoleCreateVersusEdit(title: string, content: string, selected: seq<int>, user: EditorUser, doc: Document)
    requires user.roleId in selected
    ensures user.roleId !in CreatePayload(title, content, Shared, selected, user).roles
    ensures user.roleId in EditPatch(title, content, Shared, selected, doc).roles.value
  {
    GrantsShape(selected, user.roleId);
  }

  /** Saving an untouched document sends no title or content, and an access level only when Shared. */
  lemma UntouchedDocumentPatch(doc: Document, selected: seq<int>)
    ensures EditPatch(doc.title, doc.content, doc.accessId, selected, doc)
         == if doc.accessId == Shared then EditData(None, None, Some(Shared), Some(ShareGrants(selected)))
            else EditData(None, None, None, None)
  {
  }

  /** Changing only the content of a private document sends only the content. */
  lemma ContentOnlyPatchExample(selected: seq<int>)
    ensures EditPatch("A", "C", Private, selected, Document(1, "A", "B", 1, Private))
         == EditData(None, Some("C"), None, None)
  {
  }

  // ---------------------------------------------------------------------
  // What the component shows
  // ---------------------------------------------------------------------

  /** The title/role/editor form is shown while writing or creating. */
  predicate FormVisible(mode: EditMode) {
    mode == Write || mode == New
  }

  /** The rendered content is shown while reading. */
  predicate ContentVisible(mode: EditMode) {
    mode == Read
  }

  /** The role management controls are hidden for an overlord and for a non-owner of the open document. */
  predicate RoleControlsHidden(user: EditorUser, currentDocument: Option<Document>) {
    user.role == Overlord || (currentDocument.Some? && user.id != currentDocument.value.ownerId)
  }

  /** The role search is disabled unless the document is Shared. */
  predicate RoleSearchDisabled(accessId: int) {
    accessId != Shared
  }

  /** The edit button is shown while reading, unless the right is exactly read-only. */
  predicate EditButtonVisible(mode: EditMode, rightId: int) {
    mode == Read && rightId != ReadRight
  }

  predicate SaveButtonVisible(mode: EditMode) {
    mode != Read
  }

  predicate CancelButtonVisible(mode: EditMode) {
    mode != Read
  }

  predicate CloseButtonVisible(mode: EditMode) {
    mode == Read
  }

  /** Whether the edit handler switches to writing for a given right. */
  predicate EditPermitted(rightId: int) {
    rightId < ReadRight
  }

  /**
   * The form and the rendered content are never shown together; the save and
   * cancel buttons come with the form, the edit and close buttons with the
   * content, so exactly one of cancel and close is shown.
   */
  lemma ViewsExclusive(mode: EditMode, rightId: int)
    ensures FormVisible(mode) <==> !ContentVisible(mode)
    ensures SaveButtonVisible(mode) <==> FormVisible(mode)
    ensures CancelButtonVisible(mode) <==> FormVisible(mode)
    ensures CloseButtonVisible(mode) <==> ContentVisible(mode)
    ensures CancelButtonVisible(mode) <==> !CloseButtonVisible(mode)
    ensures EditButtonVisible(mode, rightId) ==> ContentVisible(mode) && !SaveButtonVisible(mode)
  {
  }

  /**
   * The edit button and the edit handler disagree exactly for rights above
   * read-only: the button is shown but pressing it does nothing.
   */
  lemma EditButtonWithoutEffect(rightId: int)
    ensures (EditButtonVisible(Read, rightId) && !EditPermitted(rightId)) <==> rightId > ReadRight
    ensures EditPermitted(rightId) ==> EditButtonVisible(Read, rightId)
  {
  }

  /**
   * An overlord never sees the role controls; any other user sees them when
   * no document is open and for a document they own, and not for anyone
   * else's, whatever the editor mode.
   */
  lemma RoleControlsVisibility(user: EditorUser, currentDocument: Option<Document>)
    ensures user.role == Overlord ==> RoleControlsHidden(user, currentDocument)
    ensures user.role != Overlord && currentDocument.None? ==> !RoleControlsHidden(user, currentDocument)
    ensures user.role != Overlord && currentDocument.Some? ==>
      (RoleControlsHidden(user, currentDocument) <==> user.id != currentDocument.value.ownerId)
  {
  }

  /**
   * Of the three radio buttons, only Shared enables the role search: the
   * access level each one sets disables it exactly when it is not Shared.
   */
  lemma RoleSearchFollowsRadio()
    ensures RoleSearchDisabled(ParseInt10(PrivateRadio).value)
    ensures RoleSearchDisabled(ParseInt10(PublicRadio).value)
    ensures !RoleSearchDisabled(ParseInt10(SharedRadio).value)
  {
    RadioValuesParse();
  }

  // ---------------------------------------------------------------------
  // The component
  // ---------------------------------------------------------------------

  class DocumentManager {
    var title: string
    var content: string
    var accessId: int
    var rightId: int
    var accessMode: EditMode
    var selectedRoles: seq<int>

    /** The initial state: an empty public draft with read-only right. */
    constructor (props: Props)
      ensures title == "" && content == "" && accessId == Public && rightId == ReadRight
      ensures accessMode == (if props.createNew then New else Read)
      ensures selectedRoles == []
    {
      title := "";
      content := "";
      accessId := Public;
      rightId := ReadRight;
      accessMode := if props.createNew then New else Read;
      selectedRoles := [];
    }

    /**
     * New props reset the editor when they carry a document or ask for a new
     * one: a new draft is empty and public, an opened document is shown for
     * reading with its own title, content and access level.
     */
    method ReceiveProps(next: Props)
      modifies this
      ensures next.currentDocument.None? && !next.createNew ==>
        title == old(title) && content == old(content) && accessId == old(accessId)
        && rightId == old(rightId) && accessMode == old(accessMode) && selectedRoles == old(selectedRoles)
      ensures next.currentDocument.Some? || next.createNew ==>
        rightId == next.rightId && selectedRoles == next.currentDocumentRoles
      ensures next.createNew ==>
        accessMode == New && title == "" && content == "" && accessId == Public
      ensures !next.createNew && next.currentDocument.Some? ==>
        var doc := next.currentDocument.value;
        accessMode == Read && title == doc.title && content == doc.content && accessId == doc.accessId
    {
      if next.currentDocument.Some? || next.createNew {
        rightId := next.rightId;
        selectedRoles := next.currentDocumentRoles;
        accessMode := if next.createNew then New else Read;
        if next.createNew {
          title, content, accessId := "", "", Public;
        } else {
          var doc := next.currentDocument.value;
          title, content, accessId := doc.title, doc.content, doc.accessId;
        }
      }
    }

    /** The role search replaces the selected roles. */
    method OnRolesChange(roles: seq<int>)
      modifies this
      ensures selectedRoles == roles
      ensures title == old(title) && content == old(content) && accessId == old(accessId)
      ensures rightId == old(rightId) && accessMode == old(accessMode)
    {
      selectedRoles := roles;
    }

    /**
     * A change in the title box sets the title; a change anywhere else sets
     * the content. `value` is the title box's own value, and for the rich-text
     * editor the content it reports.
     */
    method OnChange(name: string, value: string)
      modifies this
      ensures name == "title" ==> title == value && content == old(content)
      ensures name != "title" ==> content == value && title == old(title)
      ensures accessId == old(accessId) && rightId == old(rightId)
      ensures accessMode == old(accessMode) && selectedRoles == old(selectedRoles)
    {
      if name != "title" {
        content := value;
      } else {
        title := value;
      }
    }

    /**
     * An access radio change sets the access level; choosing Shared keeps the
     * selected roles, any other level selects the user's own role alone.
     * (This is the rule the handler intends; see `SharedRadioDiscardsRoles`
     * for what its strict comparison does with the buttons' string values.)
     */
    method HandleRadioButtonChange(value: JsValue, props: Props)
      requires ParseInt10(value).Some?
      modifies this
      ensures accessId == ParseInt10(value).value
      ensures selectedRoles == if accessId == Shared then old(selectedRoles) else [props.user.roleId]
      ensures title == old(title) && content == old(content)
      ensures rightId == old(rightId) && accessMode == old(accessMode)
    {
      var parsed := ParseInt10(value).value;
      if parsed == Shared {
        accessId := parsed;
      } else {
        accessId := parsed;
        selectedRoles := [props.user.roleId];
      }
    }

    /**
     * Builds what a save dispatches: in NEW mode the whole new document,
     * otherwise the changes against the current document, built field by
     * field; editing without a current document fails.
     */
    method SaveDocument(props: Props) returns (request: Result<SaveRequest, SaveError>)
      ensures accessMode == New ==>
        request == Ok(SaveNew(CreatePayload(title, content, accessId, selectedRoles, props.user)))
      ensures accessMode != New && props.currentDocument.None? ==> request == Err(NoCurrentDocument)
      ensures accessMode != New && props.currentDocument.Some? ==>
        request == Ok(Modify(props.currentDocument.value.id,
                             EditPatch(title, content, accessId, selectedRoles, props.currentDocument.value)))
    {
      if accessMode == New {
        var roles := ReduceCreateGrants(selectedRoles, props.user.roleId);
        request := Ok(SaveNew(NewDocument(title, content, props.user.id, accessId, roles)));
      } else if props.currentDocument.None? {
        request := Err(NoCurrentDocument);
      } else {
        var doc := props.currentDocument.value;
        var editData := EditData(None, None, None, None);
        if title != doc.title {
          editData := editData.(title := Some(title));
        }
        if content != doc.content {
          editData := editData.(content := Some(content));
        }
        if accessId != doc.accessId || accessId == Shared {
          editData := editData.(accessId := Some(accessId));
          if accessId == Shared {
            var roles := ReduceShareGrants(selectedRoles);
            editData := editData.(roles := Some(roles));
          }
        }
        request := Ok(Modify(doc.id, editData));
      }
    }

    /** The edit handler switches to writing only for a right below read-only. */
    method EditDocument(props: Props)
      modifies this
      ensures accessMode == if EditPermitted(props.rightId) then Write else old(accessMode)
      ensures title == old(title) && content == old(content) && accessId == old(accessId)
      ensures rightId == old(rightId) && selectedRoles == old(selectedRoles)
    {
      if props.rightId < ReadRight {
        accessMode := Write;
      }
    }
  }

  // ---------------------------------------------------------------------
  // Handler sequences
  // ---------------------------------------------------------------------

  /**
   * Opening a document, switching to writing and saving without typing sends
   * no title and no content, and an access level (with the document's roles)
   * only when the document is Shared.
   */
  method SaveUntouchedDocument(initial: Props, next: Props) returns (request: Result<SaveRequest, SaveError>)
    requires next.currentDocument.Some? && !next.createNew && EditPermitted(next.rightId)
    ensures request.Ok? && request.value.Modify?
    ensures request.value.documentId == next.currentDocument.value.id
    ensures request.value.changes.title.None? && request.value.changes.content.None?
    ensures request.value.changes.accessId.Some? <==> next.currentDocument.value.accessId == Shared
    ensures request.value.changes.roles.Some? ==>
      request.value.changes.roles.value == ShareGrants(next.currentDocumentRoles)
  {
    var editor := new DocumentManager(initial);
    editor.ReceiveProps(next);
    editor.EditDocument(next);
    request := editor.SaveDocument(next);
    UntouchedDocumentPatch(next.currentDocument.value, next.currentDocumentRoles);
  }

  /**
   * A new draft saved after choosing a level other than Shared is an empty
   * document of that level owned by the user, with no role grants.
   */
  method CreateUnsharedDocument(initial: Props, next: Props, value: JsValue) returns (request: Result<SaveRequest, SaveError>)
    requires next.createNew
    requires ParseInt10(value).Some? && ParseInt10(value).value != Shared
    ensures request == Ok(SaveNew(NewDocument("", "", next.user.id, ParseInt10(value).value, map[])))
  {
    var editor := new DocumentManager(initial);
    editor.ReceiveProps(next);
    editor.HandleRadioButtonChange(value, next);
    request := editor.SaveDocument(next);
    assert CreateGrants([next.user.roleId], next.user.roleId) == map[];
  }
}

=== FILE: users_reducer.dfy ===
/**
 * The users reducer: the session and user-administration slice of the
 * client store. Each action overwrites a fixed set of fields and keeps the
 * others; an unrecognised action returns the state as it is.
 *
 * The reducer's default state and the action type constants live in files
 * that are not part of this model: the reducer is given its state, and
 * action types are the enumeration `ActionType`.
 */
module UsersReducer {
  import opened Wrappers

  /** A user as the server describes one. */
  datatype Profile = Profile(
    id: int,
    email: string,
    username: string,
    firstname: string,
    lastname: string,
    roleId: int,
    role: string)

  /** A role as the server describes one. */
  datatype Role = Role(id: int, title: string)

  /** The action type names the reducer switches on. */
  datatype ActionType =
    | LOGOUT_REQUEST | SIGNUP_REQUEST | LOGIN_REQUEST
    | LOGOUT_SUCCESSFUL | SIGNUP_SUCCESSFUL | LOGIN_SUCCESSFUL
    | LOGOUT_FAILED | SIGNUP_FAILED | LOGIN_FAILED
    | REMOVE_USER | ADD_USER
    | FETCH_USERS_REQUEST | FETCH_USERS_SUCCESSFUL | FETCH_USERS_FAILED
    | USER_MODIFY_REQUEST | USER_MODIFY_SUCCESSFUL | USER_MODIFY_FAILED
    | USER_GET_REQUEST | USER_GET_SUCCESSFUL | USER_GET_FAILED
    | USER_DELETE_REQUEST | USER_DELETE_SUCCESSFUL | USER_DELETE_FAILED
    | FETCH_ROLES_REQUEST | FETCH_ROLES_SUCCESSFUL | FETCH_ROLES_FAILED
    | USER_CANCELLED
    | Unrecognised(name: string)

  /** An action with its payload; failure actions carry an error message. */
  datatype UserAction =
    | LogoutRequest | SignupRequest | LoginRequest
    | LogoutSuccessful | SignupSuccessful | LoginSuccessful
    | LogoutFailed(message: string) | SignupFailed(message: string) | LoginFailed(message: string)
    | RemoveUser | AddUser(user: Profile)
    | FetchUsersRequest | FetchUsersSuccessful(users: seq<Profile>) | FetchUsersFailed(message: string)
    | UserModifyRequest | UserModifySuccessful(user: Profile) | UserModifyFailed(message: string)
    | UserGetRequest | UserGetSuccessful(user: Profile) | UserGetFailed(message: string)
    | UserDeleteRequest | UserDeleteSuccessful | UserDeleteFailed(message: string)
    | FetchRolesRequest | FetchRolesSuccessful(roles: seq<Role>) | FetchRolesFailed(message: string)
    | UserCancelled
    | Other(name: string)
  {
    /** The action's type name. */
    function Type(): ActionType {
      match this
      case LogoutRequest => LOGOUT_REQUEST
      case SignupRequest => SIGNUP_REQUEST
      case LoginRequest => LOGIN_REQUEST
      case LogoutSuccessful => LOGOUT_SUCCESSFUL
      case SignupSuccessful => SIGNUP_SUCCESSFUL
      case LoginSuccessful => LOGIN_SUCCESSFUL
      case LogoutFailed(_) => LOGOUT_FAILED
      case SignupFailed(_) => SIGNUP_FAILED
      case LoginFailed(_) => LOGIN_FAILED
      case RemoveUser => REMOVE_USER
      case AddUser(_) => ADD_USER
      case FetchUsersRequest => FETCH_USERS_REQUEST
      case FetchUsersSuccessful(_) => FETCH_USERS_SUCCESSFUL
      case FetchUsersFailed(_) => FETCH_USERS_FAILED
      case UserModifyRequest => USER_MODIFY_REQUEST
      case UserModifySuccessful(_) => USER_MODIFY_SUCCESSFUL
      case UserModifyFailed(_) => USER_MODIFY_FAILED
      case UserGetRequest => USER_GET_REQUEST
      case UserGetSuccessful(_) => USER_GET_SUCCESSFUL
      case UserGetFailed(_) => USER_GET_FAILED
      case UserDeleteRequest => USER_DELETE_REQUEST
      case UserDeleteSuccessful => USER_DELETE_SUCCESSFUL
      case UserDeleteFailed(_) => USER_DELETE_FAILED
      case FetchRolesRequest => FETCH_ROLES_REQUEST
      case FetchRolesSuccessful(_) => FETCH_ROLES_SUCCESSFUL
      case FetchRolesFailed(_) => FETCH_ROLES_FAILED
      case UserCancelled => USER_CANCELLED
      case Other(name) => Unrecognised(name)
    }

    /** The login, sign-up and logout request and success actions. */
    predicate IsAuthProgress() {
      LogoutRequest? || SignupRequest? || LoginRequest?
      || LogoutSuccessful? || SignupSuccessful? || LoginSuccessful?
    }

    /** The login, sign-up and logout failure actions. */
    predicate IsAuthFailure() {
      LogoutFailed? || SignupFailed? || LoginFailed?
    }

    /** The failure actions of the four user-administration requests. */
    predicate IsAdminFailure() {
      FetchUsersFailed? || UserModifyFailed? || UserGetFailed? || UserDeleteFailed?
    }
  }

  /** The users slice of the store. `id` is null when nobody is signed in. */
  datatype UsersState = UsersState(
    id: Option<int>,
    email: string,
    username: string,
    firstname: string,
    lastname: string,
    roleId: int,
    role: string,
    isAuthenticated: bool,
    result: Option<ActionType>,
    currentUserErrorMessage: string,
    currentUser: Option<Profile>,
    currentUserUpdated: bool,
    currentUserUpdating: bool,
    currentUserModified: bool,
    currentUserModifying: bool,
    users: seq<Profile>,
    usersUpdated: bool,
    usersUpdating: bool,
    userDeleted: bool,
    userDeleting: bool,
    roles: seq<Role>,
    rolesUpdated: bool,
    updatingRoles: bool)

  /** The shared branch of the login, sign-up and logout requests and successes. */
  function AuthProgress(state: UsersState, actionType: ActionType): UsersState {
    state.(currentUserErrorMessage := "", result := Some(actionType))
  }

  /** The shared branch of the login, sign-up and logout failures. */
  function AuthFailure(state: UsersState, message: string, actionType: ActionType): UsersState {
    state.(currentUserErrorMessage := message, result := Some(actionType))
  }

  /** The reducer: one branch per action type, the state itself for any other action. */
  function Users(state: UsersState, action: UserAction): UsersState {
    match action
    case LogoutRequest => AuthProgress(state, LOGOUT_REQUEST)
    case SignupRequest => AuthProgress(state, SIGNUP_REQUEST)
    case LoginRequest => AuthProgress(state, LOGIN_REQUEST)
    case LogoutSuccessful => AuthProgress(state, LOGOUT_SUCCESSFUL)
    case SignupSuccessful => AuthProgress(state, SIGNUP_SUCCESSFUL)
    case LoginSuccessful => AuthProgress(state, LOGIN_SUCCESSFUL)
    case LogoutFailed(message) => AuthFailure(state, message, LOGOUT_FAILED)
    case SignupFailed(message) => AuthFailure(state, message, SIGNUP_FAILED)
    case LoginFailed(message) => AuthFailure(state, message, LOGIN_FAILED)
    case RemoveUser =>
      state.(id := None, email := "", username := "", firstname := "", lastname := "", role := "",
             result := Some(REMOVE_USER), isAuthenticated := false, currentUserUpdated := false,
             currentUserErrorMessage := "")
    case AddUser(p) =>
      state.(id := Some(p.id), email := p.email, username := p.username, firstname := p.firstname,
             lastname := p.lastname, roleId := p.roleId, role := p.role, result := Some(ADD_USER),
             isAuthenticated := true, currentUserUpdated := false, currentUserErrorMessage := "")
    case FetchUsersRequest =>
      state.(usersUpdated := false, currentUserUpdated := false, currentUserModified := false,
             userDeleted := false, usersUpdating := true, currentUserErrorMessage := "")
    case FetchUsersSuccessful(list) =>
      state.(users := list, usersUpdated := true, usersUpdating := false)
    case FetchUsersFailed(message) =>
      state.(usersUpdated := false, usersUpdating := false, currentUserErrorMessage := message)
    case UserModifyRequest =>
      state.(currentUserModified := false, rolesUpdated := false, usersUpdated := false,
             currentUserUpdated := false, userDeleted := false, currentUserModifying := true,
             currentUserErrorMessage := "")
    case UserModifySuccessful(p) =>
      state.(email := p.email, username := p.username, firstname := p.firstname, lastname := p.lastname,
             currentUser := Some(p), currentUserErrorMessage := "", currentUserModified := true,
             currentUserUpdated := true, currentUserModifying := false)
    case UserModifyFailed(message) =>
      state.(currentUserModified := false, currentUserModifying := false, currentUserErrorMessage := message)
    case UserGetRequest =>
      state.(rolesUpdated := false, usersUpdated := false, currentUserUpdated := false,
             currentUserModified := false, userDeleted := false, currentUserUpdating := true,
             currentUserErrorMessage := "")
    case UserGetSuccessful(p) =>
      state.(currentUser := Some(p), currentUserUpdated := true, currentUserUpdating := false)
    case UserGetFailed(message) =>
      state.(currentUserUpdated := false, currentUserUpdating := false, currentUserErrorMessage := message)
    case UserDeleteRequest =>
      state.(rolesUpdated := false, usersUpdated := false, currentUserUpdated := false,
             currentUserModified := false, userDeleted := false, userDeleting := true,
             currentUserErrorMessage := "")
    case UserDeleteSuccessful =>
      state.(userDeleted := true, userDeleting := false)
    case UserDeleteFailed(message) =>
      state.(userDeleted := false, userDeleting := false, currentUserErrorMessage := message)
    case FetchRolesRequest =>
      state.(rolesUpdated := false, usersUpdated := false, userDeleted := false, updatingRoles := true,
             currentUserErrorMessage := "")
    case FetchRolesSuccessful(list) =>
      state.(rolesUpdated := true, roles := list)
    case FetchRolesFailed(message) =>
      state.(rolesUpdated := false, updatingRoles := false, currentUserErrorMessage := message)
    case UserCancelled =>
      state.(currentUserUpdated := false, currentUserModified := false, rolesUpdated := false,
             usersUpdated := false, userDeleted := false, currentUserErrorMessage := "")
    case Other(_) => state
  }

  // ---------------------------------------------------------------------
  // One action at a time
  // ---------------------------------------------------------------------

  /** Login, sign-up and logout requests and successes clear the error and record the action type, nothing else. */
  lemma AuthProgressClearsError(state: UsersState, action: UserAction)
    requires action.IsAuthProgress()
    ensures Users(state, action) == state.(currentUserErrorMessage := "", result := Some(action.Type()))
  {
  }

  /** Login, sign-up and logout failures store the message and record the action type, nothing else. */
  lemma AuthFailureStoresMessage(state: UsersState, action: UserAction)
    requires action.IsAuthFailure()
    ensures Users(state, action) == state.(currentUserErrorMessage := action.message, result := Some(action.Type()))
  {
  }

  /**
   * Removing the user signs out, clears the identity strings, the error and
   * the updated flag, but keeps the role id, the role list, the user list and
   * the current user.
   */
  lemma RemoveUserSignsOut(state: UsersState)
    ensures Users(state, RemoveUser)
         == state.(id := None, email := "", username := "", firstname := "", lastname := "", role := "",
                   result := Some(REMOVE_USER), isAuthenticated := false, currentUserUpdated := false,
                   currentUserErrorMessage := "")
    ensures var s := Users(state, RemoveUser);
      && s.id.None? && !s.isAuthenticated
      && s.email == "" && s.username == "" && s.firstname == "" && s.lastname == "" && s.role == ""
      && s.roleId == state.roleId && s.roles == state.roles && s.users == state.users
      && s.currentUser == state.currentUser
      && s.result == Some(REMOVE_USER)
  {
  }

  /**
   * Adding a user signs that user in with the identity, role id included,
   * from the payload, clears the error and the updated flag and records the
   * action.
   */
  lemma AddUserSignsIn(state: UsersState, p: Profile)
    ensures Users(state, AddUser(p))
         == state.(id := Some(p.id), email := p.email, username := p.username, firstname := p.firstname,
                   lastname := p.lastname, roleId := p.roleId, role := p.role, result := Some(ADD_USER),
                   isAuthenticated := true, currentUserUpdated := false, currentUserErrorMessage := "")
    ensures var s := Users(state, AddUser(p));
      && s.id == Some(p.id) && s.isAuthenticated && !s.currentUserUpdated
      && s.email == p.email && s.username == p.username
      && s.firstname == p.firstname && s.lastname == p.lastname
      && s.roleId == p.roleId && s.role == p.role
      && s.users == state.users && s.roles == state.roles
  {
  }

  /** The in-progress flag of each user-administration request, and its error outcome. */
  function InProgress(state: UsersState, action: UserAction): bool
    requires action.IsAdminFailure()
  {
    match action
    case FetchUsersFailed(_) => state.usersUpdating
    case UserModifyFailed(_) => state.currentUserModifying
    case UserGetFailed(_) => state.currentUserUpdating
    case UserDeleteFailed(_) => state.userDeleting
  }

  /**
   * Every user-administration failure clears its own in-progress and outcome
   * flags, stores its message, and leaves everything else alone: the identity,
   * the lists, the result and the other requests' flags.
   */
  lemma AdminFailureClearsProgress(state: UsersState, action: UserAction)
    requires action.IsAdminFailure()
    ensures action.FetchUsersFailed? ==>
      Users(state, action)
      == state.(usersUpdated := false, usersUpdating := false, currentUserErrorMessage := action.message)
    ensures action.UserModifyFailed? ==>
      Users(state, action)
      == state.(currentUserModified := false, currentUserModifying := false,
                currentUserErrorMessage := action.message)
    ensures action.UserGetFailed? ==>
      Users(state, action)
      == state.(currentUserUpdated := false, currentUserUpdating := false,
                currentUserErrorMessage := action.message)
    ensures action.UserDeleteFailed? ==>
      Users(state, action)
      == state.(userDeleted := false, userDeleting := false, currentUserErrorMessage := action.message)
    ensures var s := Users(state, action);
      && !InProgress(s, action)
      && s.currentUserErrorMessage == action.message
      && s.id == state.id && s.isAuthenticated == state.isAuthenticated && s.roleId == state.roleId
      && s.users == state.users && s.roles == state.roles && s.result == state.result
  {
  }

  /**
   * A successful profile change updates the names, email and current user,
   * clears the error, marks the user modified and updated, and keeps the id,
   * role id, role and session.
   */
  lemma ModifyKeepsIdentity(state: UsersState, p: Profile)
    ensures Users(state, UserModifySuccessful(p))
         == state.(email := p.email, username := p.username, firstname := p.firstname, lastname := p.lastname,
                   currentUser := Some(p), currentUserErrorMessage := "", currentUserModified := true,
                   currentUserUpdated := true, currentUserModifying := false)
    ensures var s := Users(state, UserModifySuccessful(p));
      && s.email == p.email && s.username == p.username
      && s.firstname == p.firstname && s.lastname == p.lastname
      && s.currentUser == Some(p) && !s.currentUserModifying
      && s.id == state.id && s.roleId == state.roleId && s.role == state.role
      && s.isAuthenticated == state.isAuthenticated
  {
  }

  /**
   * A successful role fetch stores the roles but does not clear the
   * in-progress flag the request set: after a request and its success the
   * roles are still marked as updating.
   */
  lemma RolesFetchLeavesUpdating(state: UsersState, list: seq<Role>)
    ensures Users(state, FetchRolesSuccessful(list))
         == state.(roles := list, rolesUpdated := true)
    ensures Users(Users(state, FetchRolesRequest), FetchRolesSuccessful(list)).updatingRoles
  {
  }

  /** The signed-in identity and the recorded result are the same in both states. */
  predicate SameSession(a: UsersState, b: UsersState) {
    && a.id == b.id && a.isAuthenticated == b.isAuthenticated
    && a.email == b.email && a.username == b.username
    && a.firstname == b.firstname && a.lastname == b.lastname
    && a.roleId == b.roleId && a.role == b.role && a.result == b.result
  }

  /** The fetched lists and the looked-up user are the same in both states. */
  predicate SameLists(a: UsersState, b: UsersState) {
    a.users == b.users && a.roles == b.roles && a.currentUser == b.currentUser
  }

  /** A user-list fetch request marks the list as updating and resets the outcome flags. */
  lemma FetchUsersStarts(state: UsersState)
    ensures Users(state, FetchUsersRequest)
         == state.(usersUpdated := false, currentUserUpdated := false, currentUserModified := false,
                   userDeleted := false, usersUpdating := true, currentUserErrorMessage := "")
    ensures var s := Users(state, FetchUsersRequest);
      && s.usersUpdating && s.currentUserErrorMessage == ""
      && !s.usersUpdated && !s.currentUserUpdated && !s.currentUserModified && !s.userDeleted
      && s.rolesUpdated == state.rolesUpdated
      && SameSession(s, state) && SameLists(s, state)
  {
  }

  /** A profile-change request marks the change in progress and resets the outcome flags. */
  lemma ModifyStarts(state: UsersState)
    ensures Users(state, UserModifyRequest)
         == state.(currentUserModified := false, rolesUpdated := false, usersUpdated := false,
                   currentUserUpdated := false, userDeleted := false, currentUserModifying := true,
                   currentUserErrorMessage := "")
    ensures var s := Users(state, UserModifyRequest);
      && s.currentUserModifying && s.currentUserErrorMessage == ""
      && !s.currentUserModified && !s.rolesUpdated && !s.usersUpdated && !s.currentUserUpdated && !s.userDeleted
      && SameSession(s, state) && SameLists(s, state)
  {
  }

  /** A user lookup request marks the lookup in progress and resets the outcome flags. */
  lemma GetStarts(state: UsersState)
    ensures Users(state, UserGetRequest)
         == state.(rolesUpdated := false, usersUpdated := false, currentUserUpdated := false,
                   currentUserModified := false, userDeleted := false, currentUserUpdating := true,
                   currentUserErrorMessage := "")
    ensures var s := Users(state, UserGetRequest);
      && s.currentUserUpdating && s.currentUserErrorMessage == ""
      && !s.rolesUpdated && !s.usersUpdated && !s.currentUserUpdated && !s.currentUserModified && !s.userDeleted
      && SameSession(s, state) && SameLists(s, state)
  {
  }

  /** A delete request marks the deletion in progress and resets the outcome flags. */
  lemma DeleteStarts(state: UsersState)
    ensures Users(state, UserDeleteRequest)
         == state.(rolesUpdated := false, usersUpdated := false, currentUserUpdated := false,
                   currentUserModified := false, userDeleted := false, userDeleting := true,
                   currentUserErrorMessage := "")
    ensures var s := Users(state, UserDeleteRequest);
      && s.userDeleting && s.currentUserErrorMessage == ""
      && !s.rolesUpdated && !s.usersUpdated && !s.currentUserUpdated && !s.currentUserModified && !s.userDeleted
      && SameSession(s, state) && SameLists(s, state)
  {
  }

  /** A role fetch request marks the roles as updating and resets three outcome flags only. */
  lemma RolesFetchStarts(state: UsersState)
    ensures Users(state, FetchRolesRequest)
         == state.(rolesUpdated := false, usersUpdated := false, userDeleted := false, updatingRoles := true,
                   currentUserErrorMessage := "")
    ensures var s := Users(state, FetchRolesRequest);
      && s.updatingRoles && s.currentUserErrorMessage == ""
      && !s.rolesUpdated && !s.usersUpdated && !s.userDeleted
      && s.currentUserUpdated == state.currentUserUpdated && s.currentUserModified == state.currentUserModified
      && SameSession(s, state) && SameLists(s, state)
  {
  }

  /**
   * Each user-administration request sets its own in-progress flag, clears
   * the error and the outcome flags it resets, and leaves the session and the
   * lists alone.
   */
  lemma AdminRequestStartsProgress(state: UsersState)
    ensures Users(state, FetchUsersRequest).usersUpdating
    ensures Users(state, UserModifyRequest).currentUserModifying
    ensures Users(state, UserGetRequest).currentUserUpdating
    ensures Users(state, UserDeleteRequest).userDeleting
    ensures Users(state, FetchRolesRequest).updatingRoles
    ensures forall a :: a in {FetchUsersRequest, UserModifyRequest, UserGetRequest, UserDeleteRequest, FetchRolesRequest} ==>
      Users(state, a).currentUserErrorMessage == "" && SameSession(Users(state, a), state)
      && SameLists(Users(state, a), state)
  {
    FetchUsersStarts(state);
    ModifyStarts(state);
    GetStarts(state);
    DeleteStarts(state);
    RolesFetchStarts(state);
  }

  /**
   * A successful user fetch stores the list, a successful lookup stores the
   * user, and a successful delete marks the deletion; each clears its own
   * in-progress flag and keeps the session and the error. The delete does not
   * remove the user from the fetched list.
   */
  lemma AdminSuccessStoresResult(state: UsersState, list: seq<Profile>, p: Profile)
    ensures Users(state, FetchUsersSuccessful(list)) == state.(users := list, usersUpdated := true, usersUpdating := false)
    ensures Users(state, UserGetSuccessful(p))
         == state.(currentUser := Some(p), currentUserUpdated := true, currentUserUpdating := false)
    ensures Users(state, UserDeleteSuccessful) == state.(userDeleted := true, userDeleting := false)
    ensures var s := Users(state, FetchUsersSuccessful(list));
      && s.users == list && s.usersUpdated && !s.usersUpdating
      && s.currentUserErrorMessage == state.currentUserErrorMessage && SameSession(s, state)
    ensures var s := Users(state, UserGetSuccessful(p));
      && s.currentUser == Some(p) && s.currentUserUpdated && !s.currentUserUpdating
      && s.users == state.users
      && s.currentUserErrorMessage == state.currentUserErrorMessage && SameSession(s, state)
    ensures var s := Users(state, UserDeleteSuccessful);
      && s.userDeleted && !s.userDeleting
      && s.currentUserErrorMessage == state.currentUserErrorMessage && SameSession(s, state)
      && SameLists(s, state)
  {
  }

  /** A failed role fetch clears both role flags, stores the message and keeps the roles. */
  lemma RolesFetchFailed(state: UsersState, message: string)
    ensures Users(state, FetchRolesFailed(message))
         == state.(rolesUpdated := false, updatingRoles := false, currentUserErrorMessage := message)
    ensures var s := Users(state, FetchRolesFailed(message));
      && !s.rolesUpdated && !s.updatingRoles && s.currentUserErrorMessage == message
      && SameSession(s, state) && SameLists(s, state)
  {
  }

  /**
   * Cancelling clears the error and the outcome flags but not the in-progress
   * flags, the session or the lists.
   */
  lemma CancelClearsOutcomes(state: UsersState)
    ensures Users(state, UserCancelled)
         == state.(currentUserUpdated := false, currentUserModified := false, rolesUpdated := false,
                   usersUpdated := false, userDeleted := false, currentUserErrorMessage := "")
    ensures var s := Users(state, UserCancelled);
      && s.currentUserErrorMessage == ""
      && !s.currentUserUpdated && !s.currentUserModified && !s.rolesUpdated && !s.usersUpdated && !s.userDeleted
      && s.usersUpdating == state.usersUpdating && s.currentUserModifying == state.currentUserModifying
      && s.currentUserUpdating == state.currentUserUpdating && s.userDeleting == state.userDeleting
      && s.updatingRoles == state.updatingRoles
      && SameSession(s, state) && SameLists(s, state)
  {
  }

  /** An unrecognised action leaves the state as it is. */
  lemma UnrecognisedIsIdentity(state: UsersState, name: string)
    ensures Users(state, Other(name)) == state
  {
  }

  // ---------------------------------------------------------------------
  // Sequences of actions
  // ---------------------------------------------------------------------

  /** The state after dispatching `actions` in order. */
  function Run(state: UsersState, actions: seq<UserAction>): UsersState
    decreases |actions|
  {
    if actions == [] then state
    else Users(Run(state, actions[..|actions| - 1]), actions[|actions| - 1])
  }

  /** A user is signed in exactly when there is a user id. */
  predicate SessionConsistent(state: UsersState) {
    state.isAuthenticated <==> state.id.Some?
  }

  /**
   * Only adding a user changes the role id, and only adding or removing a
   * user changes the user id or whether someone is signed in.
   */
  lemma IdentityFrame(state: UsersState, action: UserAction)
    ensures Users(state, action).roleId == if action.AddUser? then action.user.roleId else state.roleId
    ensures !action.AddUser? && !action.RemoveUser? ==>
      Users(state, action).id == state.id && Users(state, action).isAuthenticated == state.isAuthenticated
  {
  }

  /** Every action keeps the session consistent. */
  lemma UsersKeepsSession(state: UsersState, action: UserAction)
    requires SessionConsistent(state)
    ensures SessionConsistent(Users(state, action))
  {
    IdentityFrame(state, action);
  }

  /** Any sequence of actions keeps the session consistent. */
  lemma {:induction false} RunKeepsSession(state: UsersState, actions: seq<UserAction>)
    requires SessionConsistent(state)
    ensures SessionConsistent(Run(state, actions))
    decreases |actions|
  {
    if actions != [] {
      RunKeepsSession(state, actions[..|actions| - 1]);
      UsersKeepsSession(Run(state, actions[..|actions| - 1]), actions[|actions| - 1]);
    }
  }

  /** The role id of the last user added in `actions`, if any. */
  function LastAddedRoleId(actions: seq<UserAction>): Option<int>
    decreases |actions|
  {
    if actions == [] then None
    else if actions[|actions| - 1].AddUser? then Some(actions[|actions| - 1].user.roleId)
    else LastAddedRoleId(actions[..|actions| - 1])
  }

  /**
   * Only adding a user changes the role id: after any sequence of actions it
   * is the last added user's, or the initial one, even after a removal.
   */
  lemma {:induction false} RunRoleId(state: UsersState, actions: seq<UserAction>)
    ensures Run(state, actions).roleId
         == match LastAddedRoleId(actions) case Some(r) => r case None => state.roleId
    decreases |actions|
  {
    if actions != [] {
      RunRoleId(state, actions[..|actions| - 1]);
      IdentityFrame(Run(state, actions[..|actions| - 1]), actions[|actions| - 1]);
    }
  }
}

=== FILE: wrappers.dfy ===
/** Optional values and error returns shared by the modules of this model. */
module Wrappers {

  /** A value that may be absent: JavaScript's `null`/`undefined` or a missing key. */
  datatype Option<+T> = None | Some(value: T)

  /** The outcome of an operation that can fail. */
  datatype Result<+T, +E> = Ok(value: T) | Err(error: E)
}
